=== FILE: README.md ===
# Test-environment lifecycle and cart model, in Dafny

This project models the two pieces of logic inside an end-to-end API test suite
for an e-commerce backend.

1. **The server-factory lifecycle.** A `ServerFactory` is either a *mock* factory or a
   *real* factory. The mock factory runs an in-process WireMock server. It prefers a
   port and falls back to a dynamic port when that bind fails. It publishes
   `http://localhost:<port>` as its base URL, and its reset and shutdown act only on a
   running server. The real factory holds a remote URL verbatim, and its reset and
   shutdown do nothing. `ServerFactoryProvider` remembers the factory it handed out
   last. The hooks of `BaseTest` do four things:
   - start the default mock factory for the suite;
   - rebuild the request spec per class and per test;
   - reset the mock between tests;
   - shut the old factory down before switching to a new one.
2. **The cart domain model.** `CartItem` recomputes its total price on some setters
   and not on others. `Cart` appends, removes all lines of a product, or updates the
   quantity of the first line of a product. After each of these it recomputes
   subtotal, 10% tax and total.

Layout (one module per file):

- `wrappers.dfy`: `Option`, standing for Java's nullable references.
- `text.dfy`: the decimal rendering of a port, the `http://localhost:<port>` URL, and
  parsing the port back out of it.
- `wiremock.dfy`: the WireMock server, abstracted as `running`, `port`, `stubs` and
  `journal`. The host's table of occupied ports decides whether a bind succeeds.
- `restassured.dfy`: the HTTP client's process-wide defaults (`baseURI`, `port`,
  `basePath`, `urlEncodingEnabled`) and the request-spec value (`baseUri`,
  `urlEncodingEnabled`, `headers`, `filters`).
- `wiremock_factory.dfy`, `real_factory.dfy`: the two factory variants as classes.
- `server_factory.dfy`: the factory contract as a tagged union of the two variants,
  with one dispatching operation per contract method.
- `provider.dfy`: the last-writer-wins registry of the current factory.
- `base_test.dfy`: the lifecycle hooks. `Suite` holds the process-wide state. That
  state is the static active factory, the shared base URL, the registry, the client
  defaults and the host.
- `cart_item.dfy`, `cart.dfy`: the cart model. Money is exact (`real`), as with
  `BigDecimal`.

Conventions:

- A Java `null` is `None`.
- A `NullPointerException` that escapes an operation is an `ok == false` result. Each
  contract says what has changed when that happens.
- A WireMock start that fails is `started == false`. When the fallback start also
  fails, the factory's `Initialize` returns `ok == false`.
- The operating system's choice of a dynamic port is a parameter, `ephemeral`.

## Model

| member | source | states |
|---|---|---|
| `WireMockFactory.WireMockServerFactory.constructor` | src/test/java/com/amalitech/test/server/WireMockServerFactory.java:30-32 | the given port is stored unchanged as the preferred port (0 means dynamic); no server and no base URL yet |
| `WireMockFactory.WireMockServerFactory.Default` | src/test/java/com/amalitech/test/server/WireMockServerFactory.java:37-39 | the preferred port is 8080 |
| `WireMockFactory.WireMockServerFactory.Initialize` | src/test/java/com/amalitech/test/server/WireMockServerFactory.java:41-71 | a fresh server starts on the preferred port when it is free, otherwise on the dynamic port, and the first failure is not surfaced; on success the `port` field equals the bound port, `baseUrl` is `http://localhost:<port>`, the host holds that port, and the client defaults are `http://localhost`, that port, empty base path, encoding off; when both binds fail, port, URL and client defaults are unchanged |
| `WireMockFactory.WireMockServerFactory.Reset` | src/test/java/com/amalitech/test/server/WireMockServerFactory.java:73-79 | a running server loses all stubs and request history and stays up on the same port; a missing or stopped server is untouched |
| `WireMockFactory.WireMockServerFactory.Shutdown` | src/test/java/com/amalitech/test/server/WireMockServerFactory.java:81-87 | afterwards the server is not running; a running server's port is released from the host, otherwise the host is unchanged, so a second call is harmless |
| `WireMockFactory.WireMockServerFactory.BaseUrl` | src/test/java/com/amalitech/test/server/WireMockServerFactory.java:89-92 | once initialized, the URL is `http://localhost:` followed by the bound port |
| `WireMockFactory.WireMockServerFactory.BaseUrlNamesPort` | src/test/java/com/amalitech/test/server/WireMockServerFactory.java:89-92 | once initialized, the bound port parses back out of the published URL |
| `WireMockFactory.WireMockServerFactory.GetWireMockServer` | src/test/java/com/amalitech/test/server/WireMockServerFactory.java:97-99 | returns the factory's own server instance |
| `WireMockFactory.WireMockServerFactory.CreateRequestSpec` | src/test/java/com/amalitech/test/server/WireMockServerFactory.java:101-109 | base URI is the factory's base URL, URL encoding is off, the filters are exactly request then response logging, and there are no headers |
| `WireMockFactory.WireMockServerFactory.IsMockServer` | src/test/java/com/amalitech/test/server/WireMockServerFactory.java:111-114 | always true |
| `RealFactory.RealServerFactory.constructor` | src/test/java/com/amalitech/test/server/RealServerFactory.java:26-28 | the URL is stored verbatim |
| `RealFactory.RealServerFactory.Initialize` | src/test/java/com/amalitech/test/server/RealServerFactory.java:30-43 | client defaults are reset, then aimed at the stored URL with encoding off (port undefined, base path empty); the factory itself, and so its base URL, is untouched; nothing is contacted |
| `RealFactory.RealServerFactory.Reset` | src/test/java/com/amalitech/test/server/RealServerFactory.java:45-49 | changes no state |
| `RealFactory.RealServerFactory.Shutdown` | src/test/java/com/amalitech/test/server/RealServerFactory.java:51-55 | changes no state |
| `RealFactory.RealServerFactory.BaseUrl` | src/test/java/com/amalitech/test/server/RealServerFactory.java:57-60 | exactly the stored URL, which is fixed at construction |
| `RealFactory.RealServerFactory.CreateRequestSpec` | src/test/java/com/amalitech/test/server/RealServerFactory.java:62-70 | base URI is the stored URL, encoding off, the two logging filters, no headers |
| `RealFactory.RealServerFactory.IsMockServer` | src/test/java/com/amalitech/test/server/RealServerFactory.java:72-75 | always false |
| `ServerFactories.Initialize` | src/test/java/com/amalitech/test/server/ServerFactory.java:9-12 | a real factory always succeeds, keeps its URL and leaves the client with an undefined port and an empty base path; a mock factory succeeds exactly when its preferred or its fallback bind succeeds, and then is initialized on the preferred port if that was free and on the dynamic port otherwise, the host additionally holds its bound port and the client points at `http://localhost` on that port with an empty base path; a failed mock leaves the host and the client untouched; on success the factory has a base URL and client URL encoding is off |
| `ServerFactories.Reset` | src/test/java/com/amalitech/test/server/ServerFactory.java:14-17 | afterwards a running mock server has no stubs and no history; whether it runs, and the ports it holds, are unchanged; with no running server nothing changes (a real factory has none) |
| `ServerFactories.Shutdown` | src/test/java/com/amalitech/test/server/ServerFactory.java:19-22 | afterwards nothing of the factory runs, and exactly the ports its running server held are released; a stopped server keeps its port, stubs and history |
| `ServerFactories.BaseUrl` | src/test/java/com/amalitech/test/server/ServerFactory.java:24-29 | a real factory's stored URL, or the mock factory's published one |
| `ServerFactories.CreateRequestSpec` | src/test/java/com/amalitech/test/server/ServerFactory.java:31-36 | for either variant: base URI equals `BaseUrl`, encoding off, the two logging filters, no headers |
| `ServerFactories.IsMockServer` | src/test/java/com/amalitech/test/server/ServerFactory.java:38-43 | true exactly for mock factories |
| `FactoryProvider.ServerFactoryProvider.constructor` | src/test/java/com/amalitech/test/server/ServerFactoryProvider.java:7 | no current factory before any request |
| `FactoryProvider.ServerFactoryProvider.GetMockServerFactory` | src/test/java/com/amalitech/test/server/ServerFactoryProvider.java:14-17 | a fresh, uninitialized mock factory preferring 8080, which becomes current; only the registry slot changes |
| `FactoryProvider.ServerFactoryProvider.GetMockServerFactoryOnPort` | src/test/java/com/amalitech/test/server/ServerFactoryProvider.java:25-28 | a fresh, uninitialized mock factory preferring the given port, which becomes current |
| `FactoryProvider.ServerFactoryProvider.GetRealServerFactory` | src/test/java/com/amalitech/test/server/ServerFactoryProvider.java:36-39 | a fresh real factory for the URL, which becomes current |
| `FactoryProvider.ServerFactoryProvider.GetCurrentFactory` | src/test/java/com/amalitech/test/server/ServerFactoryProvider.java:46-48 | the factory most recently handed out, or null |
| `BaseTests.BaseTest.GetWireMockServer` | src/test/java/com/amalitech/test/base/BaseTest.java:26-56 | with an active mock factory, returns its server and changes nothing; otherwise creates a server on 8080 only when none is cached, and caches it even if its start failed, the host then holding 8080 exactly when that start succeeded; later calls return the cached instance unchanged |
| `BaseTests.BaseTest.SetupServerFactory` | src/test/java/com/amalitech/test/base/BaseTest.java:58-64 | a fresh mock factory preferring 8080 becomes active and current in the registry; when it starts, it is initialized and the shared base URL equals its `baseUrl()`; it binds 8080 whenever 8080 is free and the dynamic port otherwise; a failed start leaves the client untouched; the host gains exactly the bound port, so a previously active server keeps its own; the client points at `http://localhost` on the bound port with an empty base path |
| `BaseTests.BaseTest.SetupClass` | src/test/java/com/amalitech/test/base/BaseTest.java:66-70 | the request spec is rebuilt from the active factory; no server is touched |
| `BaseTests.BaseTest.SetupMethod` | src/test/java/com/amalitech/test/base/BaseTest.java:72-81 | the request spec is rebuilt, so it carries no headers, and a running mock server is left clean (no stubs, no history, including those registered before the class), still on the same port; a stopped one is left untouched |
| `BaseTests.BaseTest.SetUpClassWithStub` | src/test/java/com/amalitech/test/ecommerce/OrderApiTest.java:28-34 | stubs a test class registers during its class setup on the server it is handed are gone once the method setup before its first test has run, and the mock is still running |
| `BaseTests.BaseTest.InitializeSpecifications` | src/test/java/com/amalitech/test/base/BaseTest.java:83-87 | the request spec becomes the active factory's `createRequestSpec()`; fails only with no active factory |
| `BaseTests.BaseTest.UseRealServer` | src/test/java/com/amalitech/test/base/BaseTest.java:94-104 | the previous factory is shut down and its port released; a fresh real factory for the URL is active and current; `isMockServer()` is false; the shared base URL and the client base URI are the URL, and the client's port is undefined and its base path empty, so the old mock's port no longer applies |
| `BaseTests.BaseTest.UseMockServer` | src/test/java/com/amalitech/test/base/BaseTest.java:109-119 | the previous factory is shut down first, so the new mock binds 8080 whenever 8080 is free once the old server's port is released, and the dynamic port otherwise; a failed start leaves the client untouched; the new mock is active and current, and on success the shared base URL is its `baseUrl()` and the client points at `http://localhost` on its port; the host ends with the old server's port released and, on success, the new one's held |
| `BaseTests.BaseTest.TearDownTest` | src/test/java/com/amalitech/test/base/BaseTest.java:121-127 | resets only a mock factory's running server; with a real factory or a stopped server no state changes |
| `BaseTests.BaseTest.TearDownServer` | src/test/java/com/amalitech/test/base/BaseTest.java:129-135 | shuts down the active factory and releases its port; an already stopped server keeps its port, stubs and history; with none, nothing changes |
| `Text.DecimalRoundTrip` | src/test/java/com/amalitech/test/server/WireMockServerFactory.java:55 | the decimal text of a port reads back as that port |
| `Text.LocalUrlNamesPort` | src/test/java/com/amalitech/test/server/WireMockServerFactory.java:54-55 | the port parses back out of `http://localhost:<port>` |
| `Text.LocalUrlInjective` | src/test/java/com/amalitech/test/server/WireMockServerFactory.java:54-55 | two mock base URLs are equal exactly when their ports are |
| `CartItems.CartItem.Empty` | src/test/java/com/amalitech/test/model/CartItem.java:12-13 | quantity 0 and every reference field null |
| `CartItems.CartItem.constructor` | src/test/java/com/amalitech/test/model/CartItem.java:15-21 | fields as given and total price = unit price × quantity |
| `CartItems.CartItem.SetProductId` | src/test/java/com/amalitech/test/model/CartItem.java:28-30 | only the product id changes |
| `CartItems.CartItem.SetProductName` | src/test/java/com/amalitech/test/model/CartItem.java:36-38 | only the product name changes |
| `CartItems.CartItem.SetQuantity` | src/test/java/com/amalitech/test/model/CartItem.java:44-49 | quantity set; total recomputed as unit price × quantity when the unit price is non-null, else unchanged; never fails |
| `CartItems.CartItem.SetUnitPrice` | src/test/java/com/amalitech/test/model/CartItem.java:55-60 | unit price set; total recomputed only when quantity > 0, otherwise it keeps its old value; a null price with a positive quantity fails after storing the price; a consistent line stays consistent unless the quantity is negative |
| `CartItems.CartItem.SetTotalPrice` | src/test/java/com/amalitech/test/model/CartItem.java:66-68 | only the total changes, with no consistency check |
| `Carts.Cart.constructor` | src/test/java/com/amalitech/test/model/Cart.java:15-20 | no items and zero subtotal, tax and total |
| `Carts.Cart.SetItems` | src/test/java/com/amalitech/test/model/Cart.java:43-46 | items replaced; totals recomputed, or left unchanged when a line's total is null |
| `Carts.Cart.SetSubtotal` | src/test/java/com/amalitech/test/model/Cart.java:52-54 | only the subtotal changes, with no recomputation |
| `Carts.Cart.SetTax` | src/test/java/com/amalitech/test/model/Cart.java:60-62 | only the tax changes |
| `Carts.Cart.SetTotal` | src/test/java/com/amalitech/test/model/Cart.java:68-70 | only the total changes |
| `Carts.Cart.AddItem` | src/test/java/com/amalitech/test/model/Cart.java:73-76 | the item is appended and earlier items are unchanged; totals hold afterwards, and the subtotal grows by exactly the item's total when they held before |
| `Carts.Cart.RemoveItem` | src/test/java/com/amalitech/test/model/Cart.java:78-81 | every line of the product is removed and the rest keep their order; an absent id removes nothing; a null product id anywhere fails with nothing changed |
| `Carts.Cart.UpdateItemQuantity` | src/test/java/com/amalitech/test/model/Cart.java:83-91 | only the first line of the product gets the new quantity, under the line's recomputation rule, with its id, name and unit price kept, and the totals are recomputed; with no match neither items nor totals change |
| `Carts.Cart.RecalculateTotals` | src/test/java/com/amalitech/test/model/Cart.java:93-102 | subtotal = sum of line totals, tax = subtotal × 0.1, total = subtotal + tax; all zero for no lines; a null line total fails with the totals unchanged |
| `Carts.FirstMatch` | src/test/java/com/amalitech/test/model/Cart.java:84-86 | the first line whose id equals the wanted one, every earlier line non-null and different; or none, when all ids are non-null and different; or the first null id met before a match |
| `Carts.FindFirst` | src/test/java/com/amalitech/test/model/Cart.java:84-86 | the in-order scan returns exactly `FirstMatch` of the lines' ids |
| `Carts.Retained` | src/test/java/com/amalitech/test/model/Cart.java:79 | keeps exactly the lines whose id does not match, and the list is unchanged when no line matches |
| `Carts.RetainedConcat` | src/test/java/com/amalitech/test/model/Cart.java:79 | removal distributes over concatenation, so relative order is preserved |
| `Carts.RetainedIdempotent` | src/test/java/com/amalitech/test/model/Cart.java:79 | removing the same product twice equals removing it once |
| `Carts.SumDefined` | src/test/java/com/amalitech/test/model/Cart.java:94-96 | the sum exists exactly when no line total is null |
| `Carts.SumConcat` | src/test/java/com/amalitech/test/model/Cart.java:94-96 | the sum of a concatenation is the sum of the sums |
| `Carts.PricesAppend` | src/test/java/com/amalitech/test/model/Cart.java:94-95 | appending a line appends exactly its total price to the prices being summed |
| `Carts.SumAppend` | src/test/java/com/amalitech/test/model/Cart.java:94-96 | one more price adds its value to the running sum, or makes the sum fail when it is null |

## Left out

- Logging, and the client's `encoderConfig` charset setting, are side effects with no
  observable behaviour here, so they are not modelled.
- WireMock's request matching and the stub builders are not modelled. Stubs and
  recorded requests are opaque values. Stub registration is modelled so that a test
  class can stub the server; the request journal is modelled only as history the
  factories clear, since serving requests is not part of this model.
- The client's reset is assumed to restore the library's published defaults:
  base URI `http://localhost`, port `-1` (undefined), empty base path, encoding on.
  The library's code is not part of this model.
- Only bind failures are modelled as failures of a server start. Any other exception
  from WireMock or the client library is not modelled.
- A bind succeeds exactly when the port is in 1..65535 and not occupied. Operating
  system permissions on low ports are not modelled.
- BaseTests.BaseTest.GetWireMockServer: the server created there loads its mappings
  from the `src/test/resources` classpath. Here it starts with no stubs, because that
  loading is file I/O. Its logging of the mappings is also left out.
- RealFactory.RealServerFactory.constructor: the URL is a non-null string. A null
  URL is not modelled.
- CartItems.CartItem.constructor: takes a non-null unit price. The
  `NullPointerException` that a null price raises is not modelled.
- Carts.Cart.SetSubtotal: the value is a non-null real. A null subtotal is not modelled.
- Carts.Cart.SetTax: the value is a non-null real. A null tax is not modelled.
- Carts.Cart.SetTotal: the value is a non-null real. A null total is not modelled.
- Carts.Cart.SetItems: a null list, and null entries in it, are not modelled.
- Carts.Cart.AddItem: a null item is not modelled.
- Carts.Cart.RemoveItem: the items list is assumed to be an `ArrayList`, whose `removeIf` tests every
  element before removing any. A list set through `setItems` that uses the default
  `Collection.removeIf` (a `LinkedList`, say) would be left part-filtered when a null id
  throws; that case is not modelled.
- The cart's `items` is a value sequence of shared `CartItem` objects. In Java the
  list passed to `setItems` and returned by `getItems` is itself shared. Mutation of
  that list object from outside the cart is therefore not captured, though mutation of
  the items themselves is.
- Cart's `id` and `userId` accessors and all plain getters only read or overwrite a
  field. The fields are modelled; the accessors are not.
- BaseTest's `responseSpec` field is declared but never assigned, so it is not
  modelled.
- Product ids (`Long`) and money (`BigDecimal`) are unbounded integers and exact
  reals. `BigDecimal` scale and the `equals`/`compareTo` distinction are not modelled.
  Quantities are Java 32-bit `int`s.
- Concurrency is not modelled: the test runner calls these hooks one at a time.

Behaviour of the code worth noting:

- setupServerFactory does not shut down a previously active factory. Only
  `useRealServer` and `useMockServer` do.
- tearDownTest runs after each class, not after each test. It dereferences the
  active factory without a null check, as `setupMethod` does; both report
  `ok == false` for that case.
- The mock factory's request spec carries only the base URI (host and port in one
  URL), not a separate port.
- Switching to a real server rebuilds neither the request spec nor anything else held
  by the test instance. The spec is refreshed only by the next class or method setup.

=== FILE: base_test.dfy ===
/**
 * The lifecycle hooks every test class inherits: choose and start the default mock
 * server for the suite, rebuild the request spec for each class and each test,
 * reset the mock between tests, switch targets on demand and shut down at the end.
 */
module BaseTests {
  import opened Wrappers
  import opened WireMock
  import opened WireMockFactory
  import opened ServerFactories
  import opened FactoryProvider
  import RestAssured

  /**
   * The process-wide state the hooks share: the active factory (a static of the
   * base class), the published base URL, the provider's registry slot, the client
   * library's defaults and the host's port table.
   */
  class Suite {
    var serverFactory: Option<ServerFactory>
    var sharedBaseUrl: Option<string>
    const provider: ServerFactoryProvider
    const rest: RestAssured.Globals
    const host: Host

    constructor (provider: ServerFactoryProvider, rest: RestAssured.Globals, host: Host)
      ensures this.provider == provider && this.rest == rest && this.host == host
      ensures serverFactory == None && sharedBaseUrl == None
    {
      this.provider := provider;
      this.rest := rest;
      this.host := host;
      serverFactory := None;
      sharedBaseUrl := None;
    }

    /** The active factory object. */
    function ActiveSelf(): set<object>
      reads this
    {
      if serverFactory.Some? then Self(serverFactory.value) else {}
    }

    /** The server owned by the active factory, if any. */
    function ActiveServers(): set<object>
      reads this, ActiveSelf()
    {
      if serverFactory.Some? then Servers(serverFactory.value) else {}
    }

    /** Ports the active factory's running server holds. */
    ghost function ActiveHeldPorts(): set<int>
      reads this, ActiveSelf(), ActiveServers()
    {
      if serverFactory.Some? then HeldPorts(serverFactory.value) else {}
    }

    /** The previous factory, if there was one, has nothing left running. */
    ghost predicate Retired(previous: Option<ServerFactory>)
      reads if previous.Some? then Footprint(previous.value) else {}
    {
      previous.Some? ==> IsDown(previous.value)
    }
  }

  class BaseTest {
    const suite: Suite
    var requestSpec: Option<RestAssured.RequestSpec>
    var wireMockServer: WireMockServer?

    constructor (suite: Suite)
      ensures this.suite == suite && requestSpec == None && wireMockServer == null
    {
      this.suite := suite;
      requestSpec := None;
      wireMockServer := null;
    }

    /**
     * Before the suite: a new mock factory preferring port 8080 becomes active, is
     * started and publishes its base URL. A previously active factory is not shut
     * down. `ok` is false where the mock's fallback bind fails too.
     */
    method SetupServerFactory(ephemeral: int) returns (ok: bool)
      modifies suite, suite.provider, suite.rest, suite.host
      ensures suite.serverFactory.Some? && suite.serverFactory.value.Mock?
      ensures fresh(suite.serverFactory.value.mock)
      ensures suite.provider.currentFactory == suite.serverFactory
      ensures ok == (Free(old(suite.host.occupied), DEFAULT_PORT) || Free(old(suite.host.occupied), ephemeral))
      ensures ok ==> suite.serverFactory.value.mock.Initialized()
                     && suite.sharedBaseUrl == BaseUrl(suite.serverFactory.value)
      ensures ok && Free(old(suite.host.occupied), DEFAULT_PORT) ==> suite.serverFactory.value.mock.port == DEFAULT_PORT
      ensures ok && !Free(old(suite.host.occupied), DEFAULT_PORT) ==> suite.serverFactory.value.mock.port == ephemeral
      ensures ok ==> suite.rest.baseURI == RestAssured.DEFAULT_URI && suite.rest.port == suite.serverFactory.value.mock.port
                     && suite.rest.basePath == RestAssured.DEFAULT_PATH && !suite.rest.urlEncodingEnabled
      ensures !ok ==> suite.sharedBaseUrl == old(suite.sharedBaseUrl) && unchanged(suite.rest)
      ensures suite.host.occupied ==
                old(suite.host.occupied) + (if ok then {suite.serverFactory.value.mock.port} else {})
    {
      var f := suite.provider.GetMockServerFactory();
      suite.serverFactory := Some(f);
      ok := Initialize(f, suite.host, suite.rest, ephemeral);
      if ok {
        suite.sharedBaseUrl := BaseUrl(f);
      }
    }

    /**
     * Before each class: a fresh request spec from the active factory; the server is
     * not reset. `ok` is false where no factory is active (a null dereference).
     */
    method SetupClass() returns (ok: bool)
      modifies this
      ensures ok == suite.serverFactory.Some?
      ensures ok ==> requestSpec == Some(CreateRequestSpec(suite.serverFactory.value))
      ensures !ok ==> requestSpec == old(requestSpec)
      ensures wireMockServer == old(wireMockServer)
    {
      ok := InitializeSpecifications();
    }

    /**
     * Before each test: a fresh request spec (so no header added by an earlier test
     * survives) and, for a mock factory, a reset of its server.
     */
    method SetupMethod() returns (ok: bool)
      modifies this, suite.ActiveServers()
      ensures ok == suite.serverFactory.Some?
      ensures ok ==> requestSpec == Some(CreateRequestSpec(suite.serverFactory.value))
                     && requestSpec.value.headers == []
                     && IsClean(suite.serverFactory.value)
      ensures !ok ==> requestSpec == old(requestSpec)
      ensures suite.ActiveServers() == old(suite.ActiveServers())
      ensures suite.ActiveHeldPorts() == old(suite.ActiveHeldPorts())
      ensures wireMockServer == old(wireMockServer)
      ensures ok && !old(Running(suite.serverFactory.value)) ==> unchanged(suite.ActiveServers())
    {
      ok := InitializeSpecifications();
      if ok && IsMockServer(suite.serverFactory.value) {
        Reset(suite.serverFactory.value);
      }
    }

    /**
     * A test class's own class setup (the base class setup, then stubs registered on
     * the server `GetWireMockServer` hands out) followed by the method setup of its
     * first test: with a running mock factory active, those stubs are gone before
     * the test runs.
     */
    method SetUpClassWithStub(stub: Stub) returns (ok: bool)
      requires suite.serverFactory.Some? && Running(suite.serverFactory.value)
      modifies this, suite.host, suite.ActiveServers()
      ensures ok && Running(suite.serverFactory.value)
      ensures suite.serverFactory.value.mock.server.stubs == []
    {
      ok := SetupClass();
      var server := GetWireMockServer();
      if server != null {
        server.StubFor(stub);
      }
      ok := SetupMethod();
    }

    method InitializeSpecifications() returns (ok: bool)
      modifies this
      ensures ok == suite.serverFactory.Some?
      ensures ok ==> requestSpec == Some(CreateRequestSpec(suite.serverFactory.value))
      ensures !ok ==> requestSpec == old(requestSpec)
      ensures wireMockServer == old(wireMockServer)
    {
      if suite.serverFactory.None? {
        return false;
      }
      requestSpec := Some(CreateRequestSpec(suite.serverFactory.value));
      ok := true;
    }

    /**
     * Shuts the active factory down first, then activates, initializes and publishes
     * a real factory for `url`. The request spec is not rebuilt here.
     */
    method UseRealServer(url: string)
      modifies suite, suite.provider, suite.rest, suite.host, suite.ActiveServers()
      ensures suite.Retired(old(suite.serverFactory))
      ensures suite.host.occupied == old(suite.host.occupied) - old(suite.ActiveHeldPorts())
      ensures suite.serverFactory.Some? && suite.serverFactory.value.Real?
      ensures fresh(suite.serverFactory.value.remote)
      ensures suite.provider.currentFactory == suite.serverFactory
      ensures !IsMockServer(suite.serverFactory.value)
      ensures BaseUrl(suite.serverFactory.value) == Some(url) && suite.sharedBaseUrl == Some(url)
      ensures suite.rest.baseURI == url && !suite.rest.urlEncodingEnabled
      ensures suite.rest.port == RestAssured.UNDEFINED_PORT && suite.rest.basePath == RestAssured.DEFAULT_PATH
    {
      if suite.serverFactory.Some? {
        Shutdown(suite.serverFactory.value, suite.host);
      }
      var f := suite.provider.GetRealServerFactory(url);
      suite.serverFactory := Some(f);
      var started := Initialize(f, suite.host, suite.rest, DYNAMIC_PORT);
      suite.sharedBaseUrl := BaseUrl(f);
    }

    /**
     * Shuts the active factory down first, then activates, initializes and publishes
     * a new mock factory preferring port 8080. Because the old server is stopped
     * before the bind, its port is available to the new one.
     */
    method UseMockServer(ephemeral: int) returns (ok: bool)
      modifies suite, suite.provider, suite.rest, suite.host, suite.ActiveServers()
      ensures suite.Retired(old(suite.serverFactory))
      ensures suite.serverFactory.Some? && suite.serverFactory.value.Mock?
      ensures fresh(suite.serverFactory.value.mock)
      ensures suite.provider.currentFactory == suite.serverFactory
      ensures ok == (Free(old(suite.host.occupied) - old(suite.ActiveHeldPorts()), DEFAULT_PORT)
                     || Free(old(suite.host.occupied) - old(suite.ActiveHeldPorts()), ephemeral))
      ensures ok && Free(old(suite.host.occupied) - old(suite.ActiveHeldPorts()), DEFAULT_PORT) ==>
                suite.serverFactory.value.mock.port == DEFAULT_PORT
      ensures ok && !Free(old(suite.host.occupied) - old(suite.ActiveHeldPorts()), DEFAULT_PORT) ==>
                suite.serverFactory.value.mock.port == ephemeral
      ensures ok ==> suite.serverFactory.value.mock.Initialized()
                     && suite.sharedBaseUrl == BaseUrl(suite.serverFactory.value)
      ensures ok ==> suite.rest.baseURI == RestAssured.DEFAULT_URI && suite.rest.port == suite.serverFactory.value.mock.port
                     && suite.rest.basePath == RestAssured.DEFAULT_PATH && !suite.rest.urlEncodingEnabled
      ensures !ok ==> suite.sharedBaseUrl == old(suite.sharedBaseUrl) && unchanged(suite.rest)
      ensures suite.host.occupied == old(suite.host.occupied) - old(suite.ActiveHeldPorts())
                                     + (if ok then {suite.serverFactory.value.mock.port} else {})
    {
      if suite.serverFactory.Some? {
        Shutdown(suite.serverFactory.value, suite.host);
      }
      var f := suite.provider.GetMockServerFactory();
      suite.serverFactory := Some(f);
      ok := Initialize(f, suite.host, suite.rest, ephemeral);
      if ok {
        suite.sharedBaseUrl := BaseUrl(f);
      }
    }

    /** After each class: a mock factory's server is reset; a real factory is left alone. */
    method TearDownTest() returns (ok: bool)
      modifies suite.ActiveServers()
      ensures ok == suite.serverFactory.Some?
      ensures ok ==> IsClean(suite.serverFactory.value)
      ensures suite.ActiveServers() == old(suite.ActiveServers())
      ensures suite.ActiveHeldPorts() == old(suite.ActiveHeldPorts())
      ensures ok && suite.serverFactory.value.Real? ==> unchanged(suite.ActiveServers())
      ensures ok && !old(Running(suite.serverFactory.value)) ==> unchanged(suite.ActiveServers())
    {
      if suite.serverFactory.None? {
        return false;
      }
      if IsMockServer(suite.serverFactory.value) {
        Reset(suite.serverFactory.value);
      }
      ok := true;
    }

    /** After the suite: the active factory, if any, is shut down. */
    method TearDownServer()
      modifies suite.ActiveServers(), suite.host
      ensures suite.Retired(suite.serverFactory)
      ensures suite.host.occupied == old(suite.host.occupied) - old(suite.ActiveHeldPorts())
      ensures suite.serverFactory.None? ==> unchanged(suite.host)
      ensures suite.serverFactory.Some? && suite.serverFactory.value.Mock? && suite.serverFactory.value.mock.server != null ==>
                var s := suite.serverFactory.value.mock.server;
                s.port == old(s.port) && s.stubs == old(s.stubs) && s.journal == old(s.journal)
    {
      if suite.serverFactory.Some? {
        Shutdown(suite.serverFactory.value, suite.host);
      }
    }

    /**
     * The mock server tests stub against: the active mock factory's own server;
     * otherwise a server on port 8080 created on the first call and returned from
     * the cache afterwards, even when its start failed.
     */
    method GetWireMockServer() returns (s: WireMockServer?)
      modifies this, suite.host
      ensures suite.serverFactory.Some? && suite.serverFactory.value.Mock? ==>
                s == suite.serverFactory.value.mock.server && unchanged(this) && unchanged(suite.host)
      ensures (suite.serverFactory.None? || suite.serverFactory.value.Real?) && old(wireMockServer) != null ==>
                s == old(wireMockServer) && unchanged(this) && unchanged(suite.host)
      ensures (suite.serverFactory.None? || suite.serverFactory.value.Real?) && old(wireMockServer) == null ==>
                s != null && fresh(s) && wireMockServer == s && requestSpec == old(requestSpec)
                && s.configuredPort == DEFAULT_PORT && s.stubs == [] && s.journal == []
                && s.running == Free(old(suite.host.occupied), DEFAULT_PORT)
                && (s.running ==> s.port == DEFAULT_PORT)
                && suite.host.occupied == old(suite.host.occupied) + (if s.running then {DEFAULT_PORT} else {})
    {
      if suite.serverFactory.Some? && suite.serverFactory.value.Mock? {
        return suite.serverFactory.value.mock.GetWireMockServer();
      }
      if wireMockServer == null {
        wireMockServer := new WireMockServer(DEFAULT_PORT);
        // A fixed port is configured, so no dynamic port is ever asked for.
        var started := wireMockServer.Start(suite.host, DYNAMIC_PORT);
      }
      s := wireMockServer;
    }
  }
}

=== FILE: cart.dfy ===
/**
 * A shopping cart: an ordered list of lines and the derived subtotal, 10% tax and
 * total, recomputed after every list operation.
 */
module Carts {
  import opened Wrappers
  import opened CartItems

  const TAX_RATE: real := 0.1

  /** The lines' product ids, in order. */
  function Ids(items: seq<CartItem>): (ids: seq<Option<int>>)
    reads items
    ensures |ids| == |items| && forall i :: 0 <= i < |items| ==> ids[i] == items[i].productId
  {
    seq(|items|, i requires 0 <= i < |items| reads items => items[i].productId)
  }

  /** Some line has a null product id. */
  predicate NullIdIn(items: seq<CartItem>)
    reads items
  {
    None in Ids(items)
  }

  /** The lines' total prices, in order. */
  function Prices(items: seq<CartItem>): (prices: seq<Option<real>>)
    reads items
    ensures |prices| == |items| && forall i :: 0 <= i < |items| ==> prices[i] == items[i].totalPrice
  {
    seq(|items|, i requires 0 <= i < |items| reads items => items[i].totalPrice)
  }

  /** Appending a line appends its total price. */
  lemma PricesAppend(items: seq<CartItem>, item: CartItem)
    ensures Prices(items + [item]) == Prices(items) + [item.totalPrice]
  {
    var after := Prices(items + [item]);
    var expected := Prices(items) + [item.totalPrice];
    forall i | 0 <= i < |after| ensures after[i] == expected[i] {
      assert (items + [item])[i] == if i < |items| then items[i] else item;
    }
  }

  /**
   * Left-to-right sum starting from zero; null (None) as soon as a null price is
   * added, where the library throws.
   */
  function Sum(prices: seq<Option<real>>): Option<real> {
    if prices == [] then Some(0.0)
    else
      var front := Sum(prices[..|prices| - 1]);
      var last := prices[|prices| - 1];
      if front.Some? && last.Some? then Some(front.value + last.value) else None
  }

  /** Adding one more price to the running sum. */
  lemma SumAppend(prices: seq<Option<real>>, price: Option<real>)
    ensures Sum(prices + [price]) ==
              if Sum(prices).Some? && price.Some? then Some(Sum(prices).value + price.value) else None
  {
    assert (prices + [price])[..|prices|] == prices;
  }

  /** The sum is defined exactly when no price is null. */
  lemma {:induction false} SumDefined(prices: seq<Option<real>>)
    ensures Sum(prices).Some? <==> forall i :: 0 <= i < |prices| ==> prices[i].Some?
  {
    if prices != [] {
      SumDefined(prices[..|prices| - 1]);
    }
  }

  /** Summing a concatenation adds the two sums. */
  lemma {:induction false} SumConcat(a: seq<Option<real>>, b: seq<Option<real>>)
    requires Sum(a).Some? && Sum(b).Some?
    ensures Sum(a + b) == Some(Sum(a).value + Sum(b).value)
  {
    if b == [] {
      assert a + b == a;
    } else {
      var front := b[..|b| - 1];
      assert (a + b)[..|a + b| - 1] == a + front;
      SumDefined(b);
      SumDefined(front);
      SumConcat(a, front);
    }
  }

  /** Whether removal or update by `id` selects a line with product id `itemId`. */
  predicate Matches(itemId: Option<int>, id: Option<int>) {
    itemId.Some? && itemId == id
  }

  /** The lines whose product id does not match `id`, in their original order. */
  function Retained(items: seq<CartItem>, id: Option<int>): (kept: seq<CartItem>)
    reads items
    ensures |kept| <= |items|
    ensures forall x :: x in kept ==> x in items && !Matches(x.productId, id)
    ensures forall i :: 0 <= i < |items| && !Matches(items[i].productId, id) ==> items[i] in kept
    ensures (forall i :: 0 <= i < |items| ==> !Matches(items[i].productId, id)) ==> kept == items
  {
    if items == [] then []
    else (if Matches(items[0].productId, id) then [] else [items[0]]) + Retained(items[1..], id)
  }

  /** Removal works line by line: it distributes over concatenation, keeping order. */
  lemma {:induction false} RetainedConcat(a: seq<CartItem>, b: seq<CartItem>, id: Option<int>)
    ensures Retained(a + b, id) == Retained(a, id) + Retained(b, id)
  {
    if a == [] {
      assert a + b == b;
    } else {
      assert (a + b)[0] == a[0];
      assert (a + b)[1..] == a[1..] + b;
      RetainedConcat(a[1..], b, id);
    }
  }

  /** Removing the same product twice removes nothing more. */
  lemma RetainedIdempotent(items: seq<CartItem>, id: Option<int>)
    ensures Retained(Retained(items, id), id) == Retained(items, id)
  {
  }

  /** Where a first-match search over product ids stops. */
  datatype Lookup = Found(index: nat) | Absent | NullProductId(index: nat)

  /**
   * The first line whose product id equals `id`, scanning from the front; the scan
   * fails at a line with a null product id reached before any match.
   */
  function FirstMatch(ids: seq<Option<int>>, id: Option<int>): (r: Lookup)
    ensures r.Found? ==> r.index < |ids| && Matches(ids[r.index], id)
    ensures r.NullProductId? ==> r.index < |ids| && ids[r.index].None?
    ensures r.Absent? ==> forall j :: 0 <= j < |ids| ==> ids[j].Some? && !Matches(ids[j], id)
    ensures !r.Absent? ==> forall j :: 0 <= j < r.index ==> ids[j].Some? && !Matches(ids[j], id)
  {
    if ids == [] then Absent
    else if ids[0].None? then NullProductId(0)
    else if ids[0] == id then Found(0)
    else match FirstMatch(ids[1..], id)
      case Found(i) => Found(i + 1)
      case Absent => Absent
      case NullProductId(i) => NullProductId(i + 1)
  }

  /** The stream search of `updateItemQuantity`: scans the lines in order. */
  method FindFirst(items: seq<CartItem>, id: Option<int>) returns (r: Lookup)
    ensures r == FirstMatch(Ids(items), id)
  {
    ghost var ids := Ids(items);
    var i := 0;
    while i < |items|
      invariant 0 <= i <= |items|
      invariant FirstMatch(ids, id) == Shift(FirstMatch(ids[i..], id), i)
    {
      assert ids[i..][1..] == ids[i + 1..];
      if items[i].productId.None? {
        return NullProductId(i);
      }
      if items[i].productId == id {
        return Found(i);
      }
      i := i + 1;
    }
    assert ids[i..] == [];
    r := Absent;
  }

  /** A search result over a suffix starting at `offset`, restated for the whole sequence. */
  function Shift(r: Lookup, offset: nat): Lookup {
    match r
    case Found(i) => Found(i + offset)
    case Absent => Absent
    case NullProductId(i) => NullProductId(i + offset)
  }

  class Cart {
    var id: Option<string>
    var userId: Option<string>
    var items: seq<CartItem>
    var subtotal: real
    var tax: real
    var total: real

    /** Subtotal is the sum of the lines' totals, tax is 10% of it, total is their sum. */
    predicate TotalsHold()
      reads this, items
    {
      && Sum(Prices(items)) == Some(subtotal)
      && tax == subtotal * TAX_RATE
      && total == subtotal + tax
    }

    constructor ()
      ensures id == None && userId == None && items == []
      ensures subtotal == 0.0 && tax == 0.0 && total == 0.0
      ensures TotalsHold()
    {
      id := None;
      userId := None;
      items := [];
      subtotal := 0.0;
      tax := 0.0;
      total := 0.0;
    }

    /**
     * Recomputes the three totals from the lines; where a line's total is null the
     * sum fails (`ok == false`) and the totals keep their old values.
     */
    method RecalculateTotals() returns (ok: bool)
      modifies this
      ensures items == old(items) && id == old(id) && userId == old(userId)
      ensures ok == Sum(Prices(items)).Some?
      ensures ok ==> TotalsHold()
      ensures items == [] ==> ok && subtotal == 0.0 && tax == 0.0 && total == 0.0
      ensures !ok ==> subtotal == old(subtotal) && tax == old(tax) && total == old(total)
    {
      var sum := Sum(Prices(items));
      assert items == [] ==> sum == Some(0.0);
      if sum.None? {
        return false;
      }
      subtotal := sum.value;
      tax := subtotal * TAX_RATE;
      assert subtotal == 0.0 ==> tax == 0.0;
      total := subtotal + tax;
      ok := true;
    }

    method SetItems(items: seq<CartItem>) returns (ok: bool)
      modifies this
      ensures this.items == items && id == old(id) && userId == old(userId)
      ensures ok == Sum(Prices(items)).Some?
      ensures ok ==> TotalsHold()
      ensures !ok ==> subtotal == old(subtotal) && tax == old(tax) && total == old(total)
    {
      this.items := items;
      ok := RecalculateTotals();
    }

    /** Appends the line at the end and recomputes the totals. */
    method AddItem(item: CartItem) returns (ok: bool)
      modifies this
      ensures items == old(items) + [item] && id == old(id) && userId == old(userId)
      ensures ok == Sum(Prices(items)).Some?
      ensures ok ==> TotalsHold()
      ensures ok && old(TotalsHold()) ==> subtotal == old(subtotal) + item.totalPrice.value
      ensures !ok ==> subtotal == old(subtotal) && tax == old(tax) && total == old(total)
    {
      PricesAppend(items, item);
      SumAppend(Prices(items), item.totalPrice);
      items := items + [item];
      ok := RecalculateTotals();
    }

    /**
     * Removes every line with product id `productId`, keeping the others in order,
     * and recomputes the totals. A line with a null product id makes the match fail
     * before anything is removed (`ok == false`, nothing changes).
     */
    method RemoveItem(productId: Option<int>) returns (ok: bool)
      modifies this
      ensures id == old(id) && userId == old(userId)
      ensures old(NullIdIn(items)) ==> !ok && unchanged(this)
      ensures !old(NullIdIn(items)) ==>
                items == old(Retained(items, productId))
                && ok == Sum(Prices(items)).Some?
                && (ok ==> TotalsHold())
      ensures !ok ==> subtotal == old(subtotal) && tax == old(tax) && total == old(total)
    {
      if NullIdIn(items) {
        return false;
      }
      var kept := Retained(items, productId);
      items := kept;
      ok := RecalculateTotals();
    }

    /**
     * Sets the quantity of the first line with product id `productId` and then
     * recomputes the totals. With no match nothing changes; a null product id met
     * before the first match fails (`ok == false`) with nothing changed.
     */
    method UpdateItemQuantity(productId: Option<int>, quantity: Int32) returns (ok: bool)
      modifies this, items
      ensures items == old(items) && id == old(id) && userId == old(userId)
      ensures FirstMatch(old(Ids(items)), productId).NullProductId? ==>
                !ok && unchanged(this) && unchanged(items)
      ensures FirstMatch(old(Ids(items)), productId).Absent? ==>
                ok && unchanged(this) && unchanged(items)
      ensures FirstMatch(old(Ids(items)), productId).Found? ==>
                var line := items[FirstMatch(old(Ids(items)), productId).index];
                && line.quantity == quantity
                && line.productId == old(line.productId) && line.productName == old(line.productName)
                && line.unitPrice == old(line.unitPrice)
                && line.totalPrice == (if line.unitPrice.Some? then Some(LineTotal(line.unitPrice.value, quantity))
                                       else old(line.totalPrice))
                && (forall x :: x in items && x != line ==> unchanged(x))
                && ok == Sum(Prices(items)).Some?
                && (ok ==> TotalsHold())
      ensures !ok ==> subtotal == old(subtotal) && tax == old(tax) && total == old(total)
    {
      var hit := FindFirst(items, productId);
      match hit
      case NullProductId(_) => ok := false;
      case Absent => ok := true;
      case Found(i) =>
        items[i].SetQuantity(quantity);
        ok := RecalculateTotals();
    }

    method SetSubtotal(subtotal: real)
      modifies this
      ensures this.subtotal == subtotal && tax == old(tax) && total == old(total)
      ensures items == old(items) && id == old(id) && userId == old(userId)
    {
      this.subtotal := subtotal;
    }

    method SetTax(tax: real)
      modifies this
      ensures this.tax == tax && subtotal == old(subtotal) && total == old(total)
      ensures items == old(items) && id == old(id) && userId == old(userId)
    {
      this.tax := tax;
    }

    method SetTotal(total: real)
      modifies this
      ensures this.total == total && subtotal == old(subtotal) && tax == old(tax)
      ensures items == old(items) && id == old(id) && userId == old(userId)
    {
      this.total := total;
    }
  }
}

=== FILE: cart_item.dfy ===
/** A cart line: product, quantity and prices, with the setters' recomputation rules. */
module CartItems {
  import opened Wrappers

  /** Java's 32-bit `int`. */
  type Int32 = x: int | -0x8000_0000 <= x < 0x8000_0000

  /** The price of `quantity` units at `unitPrice` each, exactly. */
  function LineTotal(unitPrice: real, quantity: Int32): real {
    unitPrice * quantity as real
  }

  class CartItem {
    var productId: Option<int>
    var productName: Option<string>
    var quantity: Int32
    var unitPrice: Option<real>
    var totalPrice: Option<real>

    /** The line's total is its unit price times its quantity. */
    predicate PriceConsistent()
      reads this
    {
      unitPrice.Some? && totalPrice == Some(LineTotal(unitPrice.value, quantity))
    }

    /** The no-argument constructor: quantity 0, every reference null. */
    constructor Empty()
      ensures productId == None && productName == None && quantity == 0
      ensures unitPrice == None && totalPrice == None
    {
      productId := None;
      productName := None;
      quantity := 0;
      unitPrice := None;
      totalPrice := None;
    }

    /** A line whose total is computed from unit price and quantity. */
    constructor (productId: Option<int>, productName: Option<string>, quantity: Int32, unitPrice: real)
      ensures this.productId == productId && this.productName == productName
      ensures this.quantity == quantity && this.unitPrice == Some(unitPrice)
      ensures totalPrice == Some(LineTotal(unitPrice, quantity))
      ensures PriceConsistent()
    {
      this.productId := productId;
      this.productName := productName;
      this.quantity := quantity;
      this.unitPrice := Some(unitPrice);
      this.totalPrice := Some(LineTotal(unitPrice, quantity));
    }

    method SetProductId(productId: Option<int>)
      modifies this
      ensures this.productId == productId
      ensures productName == old(productName) && quantity == old(quantity)
      ensures unitPrice == old(unitPrice) && totalPrice == old(totalPrice)
    {
      this.productId := productId;
    }

    method SetProductName(productName: Option<string>)
      modifies this
      ensures this.productName == productName
      ensures productId == old(productId) && quantity == old(quantity)
      ensures unitPrice == old(unitPrice) && totalPrice == old(totalPrice)
    {
      this.productName := productName;
    }

    /**
     * Sets the quantity and, when a unit price is known, recomputes the total; with
     * no unit price the old total stays.
     */
    method SetQuantity(quantity: Int32)
      modifies this
      ensures this.quantity == quantity
      ensures totalPrice == if unitPrice.Some? then Some(LineTotal(unitPrice.value, quantity)) else old(totalPrice)
      ensures productId == old(productId) && productName == old(productName) && unitPrice == old(unitPrice)
      ensures unitPrice.Some? ==> PriceConsistent()
    {
      this.quantity := quantity;
      if unitPrice.Some? {
        totalPrice := Some(LineTotal(unitPrice.value, quantity));
      }
    }

    /**
     * Sets the unit price; the total is recomputed only for a positive quantity, and
     * otherwise keeps its old value. A null price with a positive quantity is stored
     * and then fails (`ok == false`) before the total is touched.
     */
    method SetUnitPrice(unitPrice: Option<real>) returns (ok: bool)
      modifies this
      ensures this.unitPrice == unitPrice
      ensures ok == (quantity <= 0 || unitPrice.Some?)
      ensures totalPrice == if quantity > 0 && unitPrice.Some? then Some(LineTotal(unitPrice.value, quantity))
                            else old(totalPrice)
      ensures productId == old(productId) && productName == old(productName) && quantity == old(quantity)
      ensures old(PriceConsistent()) && unitPrice.Some? && quantity >= 0 ==> PriceConsistent()
    {
      this.unitPrice := unitPrice;
      if quantity > 0 {
        if unitPrice.None? {
          return false;
        }
        totalPrice := Some(LineTotal(unitPrice.value, quantity));
      } else if quantity == 0 && unitPrice.Some? {
        assert LineTotal(unitPrice.value, 0) == 0.0;
      }
      ok := true;
    }

    /** Overwrites the total with no check against unit price or quantity. */
    method SetTotalPrice(totalPrice: Option<real>)
      modifies this
      ensures this.totalPrice == totalPrice
      ensures productId == old(productId) && productName == old(productName)
      ensures quantity == old(quantity) && unitPrice == old(unitPrice)
    {
      this.totalPrice := totalPrice;
    }
  }
}

=== FILE: provider.dfy ===
/**
 * The process-wide registry of the most recently handed-out factory. It only
 * constructs factories; it never initializes or shuts one down.
 */
module FactoryProvider {
  import opened Wrappers
  import opened WireMockFactory
  import opened RealFactory
  import opened ServerFactories

  class ServerFactoryProvider {
    var currentFactory: Option<ServerFactory>

    constructor ()
      ensures currentFactory == None
    {
      currentFactory := None;
    }

    /** A fresh, uninitialized mock factory preferring port 8080, now the current one. */
    method GetMockServerFactory() returns (f: ServerFactory)
      modifies this
      ensures f.Mock? && fresh(f.mock)
      ensures f.mock.port == DEFAULT_PORT && f.mock.server == null && f.mock.baseUrl == None
      ensures currentFactory == Some(f)
    {
      var m := new WireMockServerFactory.Default();
      currentFactory := Some(Mock(m));
      f := currentFactory.value;
    }

    /** A fresh, uninitialized mock factory preferring `port`, now the current one. */
    method GetMockServerFactoryOnPort(port: int) returns (f: ServerFactory)
      modifies this
      ensures f.Mock? && fresh(f.mock)
      ensures f.mock.port == port && f.mock.server == null && f.mock.baseUrl == None
      ensures currentFactory == Some(f)
    {
      var m := new WireMockServerFactory(port);
      currentFactory := Some(Mock(m));
      f := currentFactory.value;
    }

    /** A fresh real factory for `baseUrl`, now the current one. */
    method GetRealServerFactory(baseUrl: string) returns (f: ServerFactory)
      modifies this
      ensures f.Real? && fresh(f.remote) && f.remote.baseUrl == baseUrl
      ensures currentFactory == Some(f)
    {
      var r := new RealServerFactory(baseUrl);
      currentFactory := Some(Real(r));
      f := currentFactory.value;
    }

    /** The factory most recently handed out, or null before the first request. */
    method GetCurrentFactory() returns (f: Option<ServerFactory>)
      ensures f == currentFactory
    {
      f := currentFactory;
    }
  }
}

=== FILE: real_factory.dfy ===
/** The factory that points the tests at an already running remote server. */
module RealFactory {
  import opened Wrappers
  import RestAssured

  class RealServerFactory {
    const baseUrl: string

    /** Keeps the URL exactly as given; nothing is contacted. */
    constructor (baseUrl: string)
      ensures this.baseUrl == baseUrl
    {
      this.baseUrl := baseUrl;
    }

    /**
     * Resets the client library's defaults and aims them at the stored URL with URL
     * encoding off. No connectivity check is made and the factory itself is untouched.
     */
    method Initialize(rest: RestAssured.Globals)
      modifies rest
      ensures rest.baseURI == baseUrl && !rest.urlEncodingEnabled
      ensures rest.port == RestAssured.UNDEFINED_PORT && rest.basePath == RestAssured.DEFAULT_PATH
    {
      rest.Reset();
      rest.baseURI := baseUrl;
      rest.urlEncodingEnabled := false;
    }

    /** Nothing to reset on a remote server. */
    method Reset()
      ensures unchanged(this)
    {
    }

    /** Nothing to stop on a remote server. */
    method Shutdown()
      ensures unchanged(this)
    {
    }

    function BaseUrl(): (url: string)
      reads this
      ensures url == baseUrl
    {
      baseUrl
    }

    /** A fresh request spec aimed at the stored URL. */
    function CreateRequestSpec(): (spec: RestAssured.RequestSpec)
      reads this
      ensures spec.baseUri == Some(baseUrl) && !spec.urlEncodingEnabled && spec.headers == []
      ensures spec.filters == [RestAssured.RequestLoggingFilter, RestAssured.ResponseLoggingFilter]
    {
      RestAssured.LoggingSpec(Some(baseUrl))
    }

    function IsMockServer(): (mock: bool)
      ensures !mock
    {
      false
    }
  }
}

=== FILE: restassured.dfy ===
/**
 * The HTTP client library's process-wide defaults and its request specification,
 * reduced to the settings the factories write.
 */
module RestAssured {
  import opened Wrappers

  /** The defaults the client library restores on reset. */
  const DEFAULT_URI: string := "http://localhost"
  const UNDEFINED_PORT: int := -1
  const DEFAULT_PATH: string := ""
  const DEFAULT_URL_ENCODING_ENABLED: bool := true

  datatype Filter = RequestLoggingFilter | ResponseLoggingFilter
  datatype Header = Header(name: string, value: string)

  /** A built request specification: where requests go and what they carry by default. */
  datatype RequestSpec = RequestSpec(
    baseUri: Option<string>,
    urlEncodingEnabled: bool,
    headers: seq<Header>,
    filters: seq<Filter>)

  /** The spec both factories build: `baseUri`, encoding off, the two logging filters, no headers. */
  function LoggingSpec(baseUri: Option<string>): (spec: RequestSpec)
    ensures spec.baseUri == baseUri && !spec.urlEncodingEnabled
    ensures spec.headers == [] && spec.filters == [RequestLoggingFilter, ResponseLoggingFilter]
  {
    RequestSpec(baseUri, false, [], [RequestLoggingFilter, ResponseLoggingFilter])
  }

  /** The client library's static configuration, shared by every request in the process. */
  class Globals {
    var baseURI: string
    var port: int
    var basePath: string
    var urlEncodingEnabled: bool

    constructor ()
      ensures IsDefault()
    {
      baseURI := DEFAULT_URI;
      port := UNDEFINED_PORT;
      basePath := DEFAULT_PATH;
      urlEncodingEnabled := DEFAULT_URL_ENCODING_ENABLED;
    }

    predicate IsDefault()
      reads this
    {
      baseURI == DEFAULT_URI && port == UNDEFINED_PORT && basePath == DEFAULT_PATH
      && urlEncodingEnabled == DEFAULT_URL_ENCODING_ENABLED
    }

    method Reset()
      modifies this
      ensures IsDefault()
    {
      baseURI := DEFAULT_URI;
      port := UNDEFINED_PORT;
      basePath := DEFAULT_PATH;
      urlEncodingEnabled := DEFAULT_URL_ENCODING_ENABLED;
    }
  }
}

=== FILE: server_factory.dfy ===
/**
 * The server factory contract, with its two variants as a tagged union: every
 * operation dispatches on the variant, so callers never ask which kind they hold.
 */
module ServerFactories {
  import opened Wrappers
  import opened WireMock
  import opened WireMockFactory
  import opened RealFactory
  import RestAssured

  datatype ServerFactory = Mock(mock: WireMockServerFactory) | Real(remote: RealServerFactory)

  /** The factory object itself. */
  function Self(f: ServerFactory): set<object> {
    if f.Mock? then {f.mock} else {f.remote}
  }

  /** The server a mock factory currently owns, if any. */
  function Servers(f: ServerFactory): set<object>
    reads Self(f)
  {
    if f.Mock? && f.mock.server != null then {f.mock.server} else {}
  }

  /** Everything an operation on `f` may read. */
  function Footprint(f: ServerFactory): set<object>
    reads Self(f)
  {
    Self(f) + Servers(f)
  }

  /** The factory owns a server that is up. */
  ghost predicate Running(f: ServerFactory)
    reads Footprint(f)
  {
    f.Mock? && f.mock.server != null && f.mock.server.running
  }

  /** The port held on the host by the factory's running server. */
  ghost function HeldPorts(f: ServerFactory): set<int>
    reads Footprint(f)
  {
    if Running(f) then {f.mock.server.port} else {}
  }

  /** Nothing of the factory is left running. */
  ghost predicate IsDown(f: ServerFactory)
    reads Footprint(f)
  {
    !Running(f)
  }

  /** Stubs and request history of a running mock server are empty. */
  ghost predicate IsClean(f: ServerFactory)
    reads Footprint(f)
  {
    Running(f) ==> f.mock.server.stubs == [] && f.mock.server.journal == []
  }

  /**
   * Brings the factory's target into a usable state and aims the client library at
   * it. Only a mock whose fallback bind also fails reports `ok == false`.
   */
  method Initialize(f: ServerFactory, host: Host, rest: RestAssured.Globals, ephemeral: int) returns (ok: bool)
    modifies Self(f), host, rest
    ensures f.Real? ==> ok && unchanged(f.remote) && host.occupied == old(host.occupied)
                        && rest.baseURI == f.remote.baseUrl && !rest.urlEncodingEnabled
                        && rest.port == RestAssured.UNDEFINED_PORT && rest.basePath == RestAssured.DEFAULT_PATH
    ensures f.Mock? ==> fresh(f.mock.server)
                        && ok == (Free(old(host.occupied), BindTarget(old(f.mock.port), ephemeral))
                                  || Free(old(host.occupied), ephemeral))
                        && (ok ==> f.mock.Initialized() && rest.port == f.mock.port
                                   && rest.baseURI == RestAssured.DEFAULT_URI && rest.basePath == RestAssured.DEFAULT_PATH
                                   && host.occupied == old(host.occupied) + {f.mock.port})
                        && (!ok ==> host.occupied == old(host.occupied) && unchanged(rest))
                        && (ok && Free(old(host.occupied), BindTarget(old(f.mock.port), ephemeral)) ==>
                              f.mock.port == BindTarget(old(f.mock.port), ephemeral))
                        && (ok && !Free(old(host.occupied), BindTarget(old(f.mock.port), ephemeral)) ==>
                              f.mock.port == ephemeral)
    ensures ok ==> BaseUrl(f).Some? && !rest.urlEncodingEnabled
  {
    match f
    case Mock(m) => ok := m.Initialize(host, rest, ephemeral);
    case Real(r) => r.Initialize(rest); ok := true;
  }

  /** Restores a running mock server to a clean state; a real server is left alone. */
  method Reset(f: ServerFactory)
    modifies Servers(f)
    ensures Footprint(f) == old(Footprint(f))
    ensures Running(f) == old(Running(f)) && HeldPorts(f) == old(HeldPorts(f))
    ensures IsClean(f)
    ensures !old(Running(f)) ==> unchanged(Servers(f))
  {
    match f
    case Mock(m) => m.Reset();
    case Real(r) => r.Reset();
  }

  /** Takes the server down and releases its port; a real server is left alone. */
  method Shutdown(f: ServerFactory, host: Host)
    modifies Servers(f), host
    ensures Footprint(f) == old(Footprint(f))
    ensures IsDown(f)
    ensures host.occupied == old(host.occupied) - old(HeldPorts(f))
    ensures f.Real? ==> unchanged(host)
    ensures f.Mock? && f.mock.server != null ==>
              f.mock.server.port == old(f.mock.server.port) && f.mock.server.stubs == old(f.mock.server.stubs)
              && f.mock.server.journal == old(f.mock.server.journal)
  {
    match f
    case Mock(m) => m.Shutdown(host);
    case Real(r) => r.Shutdown();
  }

  function BaseUrl(f: ServerFactory): (url: Option<string>)
    reads Footprint(f)
    ensures f.Real? ==> url == Some(f.remote.baseUrl)
    ensures f.Mock? ==> url == f.mock.baseUrl
  {
    match f
    case Mock(m) => m.BaseUrl()
    case Real(r) => Some(r.BaseUrl())
  }

  function CreateRequestSpec(f: ServerFactory): (spec: RestAssured.RequestSpec)
    reads Footprint(f)
    ensures spec.baseUri == BaseUrl(f) && !spec.urlEncodingEnabled && spec.headers == []
    ensures spec.filters == [RestAssured.RequestLoggingFilter, RestAssured.ResponseLoggingFilter]
  {
    match f
    case Mock(m) => m.CreateRequestSpec()
    case Real(r) => r.CreateRequestSpec()
  }

  function IsMockServer(f: ServerFactory): (mock: bool)
    ensures mock <==> f.Mock?
  {
    match f
    case Mock(m) => m.IsMockServer()
    case Real(r) => r.IsMockServer()
  }
}

=== FILE: text.dfy ===
/**
 * Decimal rendering of port numbers and the "http://localhost:<port>" base URL
 * that the mock server factory publishes.
 */
module Text {
  import opened Wrappers

  const LOCALHOST_PREFIX: string := "http://localhost:"

  predicate IsDigit(c: char) { '0' <= c <= '9' }

  function DigitChar(d: nat): (c: char)
    requires d < 10
    ensures IsDigit(c)
  {
    ['0', '1', '2', '3', '4', '5', '6', '7', '8', '9'][d]
  }

  function DigitValue(c: char): (d: nat)
    requires IsDigit(c)
    ensures d < 10 && DigitChar(d) == c
  {
    (c as int - '0' as int) as nat
  }

  /** Decimal text of a non-negative number, as Java's string concatenation renders an int. */
  function Decimal(n: nat): (s: string)
    ensures |s| >= 1
    ensures forall i :: 0 <= i < |s| ==> IsDigit(s[i])
  {
    if n < 10 then [DigitChar(n)] else Decimal(n / 10) + [DigitChar(n % 10)]
  }

  /** Reads back a non-empty string of decimal digits. */
  function ParseDecimal(s: string): (r: Option<nat>)
    ensures r.Some? <==> (|s| >= 1 && forall i :: 0 <= i < |s| ==> IsDigit(s[i]))
  {
    if |s| == 0 || !IsDigit(s[|s| - 1]) then None
    else if |s| == 1 then Some(DigitValue(s[0]))
    else match ParseDecimal(s[..|s| - 1])
      case None => None
      case Some(high) => Some(high * 10 + DigitValue(s[|s| - 1]))
  }

  lemma {:induction false} DecimalRoundTrip(n: nat)
    ensures ParseDecimal(Decimal(n)) == Some(n)
  {
    if n >= 10 {
      var s := Decimal(n);
      DecimalRoundTrip(n / 10);
      assert s[..|s| - 1] == Decimal(n / 10);
      assert DigitValue(s[|s| - 1]) == n % 10;
    }
  }

  /** The base URL a mock server on `port` is reached at. */
  function LocalUrl(port: nat): (url: string)
    ensures |url| > |LOCALHOST_PREFIX| && url[..|LOCALHOST_PREFIX|] == LOCALHOST_PREFIX
  {
    LOCALHOST_PREFIX + Decimal(port)
  }

  /** The port named by a "http://localhost:<digits>" URL, if it has that shape. */
  function PortOf(url: string): (r: Option<nat>)
    ensures r.Some? ==> |url| > |LOCALHOST_PREFIX| && url[..|LOCALHOST_PREFIX|] == LOCALHOST_PREFIX
  {
    if |url| > |LOCALHOST_PREFIX| && url[..|LOCALHOST_PREFIX|] == LOCALHOST_PREFIX
    then ParseDecimal(url[|LOCALHOST_PREFIX|..])
    else None
  }

  /** The published base URL names exactly the port the server is bound to. */
  lemma LocalUrlNamesPort(port: nat)
    ensures PortOf(LocalUrl(port)) == Some(port)
  {
    var url := LocalUrl(port);
    assert url[|LOCALHOST_PREFIX|..] == Decimal(port);
    DecimalRoundTrip(port);
  }

  /** Two servers publish the same base URL only when they are on the same port. */
  lemma LocalUrlInjective(p: nat, q: nat)
    ensures LocalUrl(p) == LocalUrl(q) <==> p == q
  {
    if LocalUrl(p) == LocalUrl(q) {
      LocalUrlNamesPort(p);
      LocalUrlNamesPort(q);
    }
  }
}

=== FILE: wiremock.dfy ===
/**
 * The mock HTTP responder the factories drive, reduced to what the factories and
 * the lifecycle hooks observe: whether it is running, the port it is bound to, its
 * stub mappings and its request journal. Request matching is not modelled; stubs
 * and recorded requests are opaque values.
 */
module WireMock {

  /** Port number WireMock's configuration uses for "choose a free port". */
  const DYNAMIC_PORT: int := 0

  datatype Stub = Stub(name: string)
  datatype Request = Request(verb: string, url: string)

  /** The local machine's table of bound TCP ports. */
  class Host {
    var occupied: set<int>

    constructor (occupied: set<int>)
      ensures this.occupied == occupied
    {
      this.occupied := occupied;
    }
  }

  /** A bind to `port` succeeds when the port is a valid TCP port nobody holds. */
  predicate Free(occupied: set<int>, port: int) {
    1 <= port <= 65535 && port !in occupied
  }

  /**
   * The port a server configured with `configured` tries to bind: the configured one,
   * or the one the operating system hands out when the configuration asks for a
   * dynamic port.
   */
  function BindTarget(configured: int, ephemeral: int): (p: int)
    ensures configured != DYNAMIC_PORT ==> p == configured
  {
    if configured == DYNAMIC_PORT then ephemeral else configured
  }

  class WireMockServer {
    const configuredPort: int
    var running: bool
    var port: int
    var stubs: seq<Stub>
    var journal: seq<Request>

    constructor (configuredPort: int)
      ensures this.configuredPort == configuredPort
      ensures !running && stubs == [] && journal == []
    {
      this.configuredPort := configuredPort;
      running := false;
      port := 0;
      stubs := [];
      journal := [];
    }

    /**
     * Binds the configured port (or `ephemeral`, the operating system's choice, for a
     * dynamic configuration) and starts serving; `started` is false where the
     * library throws.
     */
    method Start(host: Host, ephemeral: int) returns (started: bool)
      requires !running
      modifies this, host
      ensures started == Free(old(host.occupied), BindTarget(configuredPort, ephemeral))
      ensures started ==> running && port == BindTarget(configuredPort, ephemeral)
                          && host.occupied == old(host.occupied) + {port}
      ensures !started ==> !running && port == old(port) && host.occupied == old(host.occupied)
      ensures stubs == old(stubs) && journal == old(journal)
    {
      var target := BindTarget(configuredPort, ephemeral);
      started := Free(host.occupied, target);
      if started {
        host.occupied := host.occupied + {target};
        port := target;
        running := true;
      }
    }

    /** Stops serving and releases the bound port. */
    method Stop(host: Host)
      modifies this, host
      ensures !running && port == old(port)
      ensures host.occupied == if old(running) then old(host.occupied) - {port} else old(host.occupied)
      ensures stubs == old(stubs) && journal == old(journal)
    {
      if running {
        host.occupied := host.occupied - {port};
      }
      running := false;
    }

    /** Drops every stub mapping and every recorded request. */
    method ResetAll()
      modifies this
      ensures stubs == [] && journal == []
      ensures running == old(running) && port == old(port)
    {
      stubs := [];
      journal := [];
    }

    /** Registers a stub mapping; later requests may be matched against it. */
    method StubFor(stub: Stub)
      modifies this
      ensures stubs == old(stubs) + [stub]
      ensures journal == old(journal) && running == old(running) && port == old(port)
    {
      stubs := stubs + [stub];
    }
  }
}

=== FILE: wiremock_factory.dfy ===
/** The factory that runs an in-process WireMock server for the tests to talk to. */
module WireMockFactory {
  import opened Wrappers
  import opened Text
  import opened WireMock
  import RestAssured

  const DEFAULT_PORT: int := 8080

  class WireMockServerFactory {
    var server: WireMockServer?
    /** The preferred port before initialization, the bound port after it. */
    var port: int
    var baseUrl: Option<string>

    /** A factory that will prefer `port`; 0 asks for a dynamic port. */
    constructor (port: int)
      ensures this.port == port && server == null && baseUrl == None
    {
      this.port := port;
      server := null;
      baseUrl := None;
    }

    /** A factory that will prefer port 8080. */
    constructor Default()
      ensures port == DEFAULT_PORT && server == null && baseUrl == None
    {
      port := DEFAULT_PORT;
      server := null;
      baseUrl := None;
    }

    /** A started server whose port and URL this factory has recorded and published. */
    ghost predicate Initialized()
      reads this, server
    {
      && server != null
      && server.running
      && port == server.port
      && 1 <= port <= 65535
      && baseUrl == Some(LocalUrl(port))
    }

    /**
     * Starts a new server on the preferred port, falling back to a dynamic port
     * (`ephemeral`, the operating system's choice) when that bind fails, then points
     * the client library's defaults at it. `ok` is false only when the fallback bind
     * fails too, where the library's exception escapes.
     */
    method Initialize(host: Host, rest: RestAssured.Globals, ephemeral: int) returns (ok: bool)
      modifies this, host, rest
      ensures server != null && fresh(server)
      ensures server.stubs == [] && server.journal == []
      ensures ok == (Free(old(host.occupied), BindTarget(old(port), ephemeral))
                     || Free(old(host.occupied), ephemeral))
      ensures ok ==> Initialized() && host.occupied == old(host.occupied) + {port}
      ensures ok && Free(old(host.occupied), BindTarget(old(port), ephemeral)) ==>
                port == BindTarget(old(port), ephemeral)
      ensures ok && !Free(old(host.occupied), BindTarget(old(port), ephemeral)) ==>
                port == ephemeral && server.configuredPort == DYNAMIC_PORT
      ensures ok ==> rest.baseURI == "http://localhost" && rest.port == port
                     && rest.basePath == "" && !rest.urlEncodingEnabled
      ensures !ok ==> !server.running && port == old(port) && baseUrl == old(baseUrl)
                      && host.occupied == old(host.occupied)
                      && unchanged(rest)
    {
      var s := new WireMockServer(port);
      var started := s.Start(host, ephemeral);
      if !started {
        s := new WireMockServer(DYNAMIC_PORT);
        started := s.Start(host, ephemeral);
      }
      server := s;
      if !started {
        return false;
      }
      port := s.port;
      baseUrl := Some(LocalUrl(port));
      rest.Reset();
      rest.baseURI := "http://localhost";
      rest.port := port;
      rest.basePath := "";
      rest.urlEncodingEnabled := false;
      ok := true;
    }

    /** Clears stubs and request history of a running server; otherwise does nothing. */
    method Reset()
      modifies server
      ensures server == old(server)
      ensures server != null && old(server.running) ==> server.stubs == [] && server.journal == []
      ensures server != null && !old(server.running) ==> unchanged(server)
      ensures server != null ==> server.running == old(server.running) && server.port == old(server.port)
    {
      if server != null && server.running {
        server.ResetAll();
      }
    }

    /** Stops a running server, releasing its port; otherwise does nothing. */
    method Shutdown(host: Host)
      modifies server, host
      ensures server == old(server)
      ensures server != null ==> !server.running && server.port == old(server.port)
                                 && server.stubs == old(server.stubs) && server.journal == old(server.journal)
      ensures host.occupied == if server != null && old(server.running)
                               then old(host.occupied) - {server.port}
                               else old(host.occupied)
    {
      if server != null && server.running {
        server.Stop(host);
      }
    }

    /** The published base URL; null until a successful initialization. */
    function BaseUrl(): (url: Option<string>)
      reads this, server
      ensures Initialized() ==> url == Some(LocalUrl(port))
    {
      baseUrl
    }

    /** Once initialized, the published URL names the bound port and no other. */
    lemma BaseUrlNamesPort()
      requires Initialized()
      ensures BaseUrl().Some? && PortOf(BaseUrl().value) == Some(port)
    {
      LocalUrlNamesPort(port);
    }

    /** The server this factory owns, exactly as it is held. */
    function GetWireMockServer(): (s: WireMockServer?)
      reads this
      ensures s == server
    {
      server
    }

    /** A fresh request spec aimed at the published base URL. */
    function CreateRequestSpec(): (spec: RestAssured.RequestSpec)
      reads this, server
      ensures spec.baseUri == BaseUrl() && !spec.urlEncodingEnabled && spec.headers == []
      ensures spec.filters == [RestAssured.RequestLoggingFilter, RestAssured.ResponseLoggingFilter]
    {
      RestAssured.LoggingSpec(baseUrl)
    }

    function IsMockServer(): (mock: bool)
      ensures mock
    {
      true
    }
  }
}

=== FILE: wrappers.dfy ===
/** Java's nullable references, as values. */
module Wrappers {

  /** `None` stands for a Java `null`. */
  datatype Option<+T> = None | Some(value: T)
}
